=== FILE: README.md ===
# Vision pose fusion and arm mode machine, modelled in Dafny

This project models two pieces of a robot's control code.

**Vision pose fusion** (`Vision.java`): each tick, every camera pipeline reports a timestamped
snapshot of detected AprilTags. The subsystem does the following:

- skips snapshots it has already seen (staleness gate);
- estimates the robot's field pose, from the closest valid tag (single-tag) or from a
  multi-point solve over all tags when camera calibration is present (multi-tag);
- rejects poses too far from the current estimate (divergence gate);
- pushes the surviving measurements, with distance-based standard deviations, into the pose
  filter, unless vision is disabled.

Two queries sit beside it: a convergence check and a best-pose query.

**Arm mode machine** (`Arm.java`): there are seven modes. Command methods (stop, manual
extend/rotate, hold, setpoints, characterization) switch modes. The periodic step moves the arm
to HOLD or CALIBRATE based on the limit switch, the extension reading and the extension limits.

Modules:

- `Outcomes`: `Option` (Java null) and `Result` (a thrown exception).
- `Geometry`: opaque `Pose3d`, `Pose2d` and `Transform3d`, plus the pose algebra as a
  caller-supplied `Frames` record.
- `VisionConstants`: 0.5 maximum ambiguity, 1000.0 m divergence gate, 6.0 m usable range,
  0.5 m convergence default, Double.MAX_VALUE.
- `Targets`: detections, snapshots, the layout and the target validator.
- `SingleTag`, `MultiTag`, `Confidence`: the estimators and the confidence model, as pure
  functions.
- `Vision`: the per-tick controller. It has a functional definition (`ProcessPipeline`,
  `RunFrom`, `TickOf`) and a `Periodic` method, written as the source's loop, that is proved to
  compute it. The queries are methods with loop invariants.
- `Arm`: the arm state, its commands, `Periodic`, and an invariant over every reachable state.

Two quirks of the source are kept as written:

- **Early return on a null pose.** `return` at Vision.java:129 ends the whole tick, not just the
  pipeline. The tick ends with `NoPose(i)`. Later pipelines keep their timestamps, and even their
  old snapshots, because `updateInputs` happens inside the loop. A `continue` there would skip
  only the one pipeline; the model follows the `return`. `ProcessPipeline` halts with `NoPose(i)` exactly when a newer
  snapshot's multi-tag estimate has no pose, and with `UnknownTag` exactly when it throws.
  `RunFromEnds` shows the early end can only happen for a pipeline with no usable calibration
  and no candidate tag; `FinishedTickHadPoses` shows a tick reaches the end only if every newer
  snapshot had a pose. So an uncalibrated snapshot with no candidate (an empty one, say)
  abandons every later pipeline.
- **Inverted validity test in the multi-tag loop** (Vision.java:312-316). Targets the validator
  accepts are skipped. The others have their field pose fetched with an unchecked `get()`. This
  is modelled as an explicit error outcome, not a precondition: `Gather` and `EstimateMultiTag`
  return `Err(id)` for the first unknown id, and the tick ends with `UnknownTag(i, id)` in the
  state reached at the throw. Because the loop runs before the calibration check, this happens
  even when the single-tag fallback would be used. The distance returned with a solved pose is
  the least over the targets the loop does not skip, i.e. the ones the validator rejects, and
  the solver receives those targets' tags. With calibration and only valid targets, the solver
  gets no tags and the measurement is weighted at Double.MAX_VALUE
  (`CalibratedAllValidUsesNoTags`, `CalibratedAllValidFusedAtDoubleMax`). In Java's doubles,
  `Math.pow(Double.MAX_VALUE, 2.0)` under the default power overflows to +Infinity, so that
  measurement is pushed with infinite standard deviations and carries no weight, while
  `isVisionUpdating` still turns true. The model's `pow` is a parameter and does not show the
  overflow.

## Model

| member | source | states |
|---|---|---|
| `Targets.TagPose` | src/main/java/frc/lib/io/vision/Vision.java:264-265 | the layout lookup yields a pose exactly when the id is in the layout, and then the layout's pose |
| `Targets.InvalidTargets` | src/main/java/frc/lib/io/vision/Vision.java:363-368 | each of the four conditions of the validator `IsValidTarget` alone rejects a target: the -1 id, the -1 ambiguity sentinel, an ambiguity of 0.5 or more, an id missing from the layout; a valid target has a known id other than -1 |
| `MultiTag.ValidatorOnOneTarget` | src/main/java/frc/lib/io/vision/Vision.java:363-368 | the validator `IsValidTarget` decides what both estimators do with a lone target: single-tag uses it iff it is valid and under 6.0 m; for a known id, multi-tag hands its tag to the solver iff it is not valid |
| `SingleTag.ClosestIndex` | src/main/java/frc/lib/io/vision/Vision.java:261-287 | the scan picks nothing exactly when no target is valid and under 6.0 m; otherwise it picks a candidate no farther than any other, and strictly nearer than every earlier candidate (the first minimum) |
| `SingleTag.EstimateSingleTag` | src/main/java/frc/lib/io/vision/Vision.java:248-290 | no pose means no candidate and the distance left at Double.MAX_VALUE; a pose comes with a distance under 6.0 m |
| `SingleTag.SingleTagIsClosestCandidate` | src/main/java/frc/lib/io/vision/Vision.java:248-290 | a pose exists iff some candidate exists; it is the robot pose seen through the first candidate of minimum distance (strictly nearer than every earlier candidate), and the distance is that minimum |
| `SingleTag.NonCandidateNeverSelected` | src/main/java/frc/lib/io/vision/Vision.java:262-280 | a target the validator rejects, or one at 6.0 m or beyond, is never the one picked |
| `SingleTag.TieKeepsEarliest` | src/main/java/frc/lib/io/vision/Vision.java:279-283 | on an exact distance tie between candidates the later one is never picked |
| `MultiTag.Gather` | src/main/java/frc/lib/io/vision/Vision.java:307-324 | the loop throws iff some id is unknown, naming the first; otherwise it collects every corner, exactly the field poses of the targets the validator rejects, and the least distance among them (or Double.MAX_VALUE) |
| `MultiTag.GatherTagsInOrder` | src/main/java/frc/lib/io/vision/Vision.java:309-324 | the tag list the loop builds is exactly the rejected targets' tags in detection order, duplicates kept, as the front-to-back reference `RejectedTags` lists them |
| `MultiTag.EstimateMultiTag` | src/main/java/frc/lib/io/vision/Vision.java:302-355 | fails iff some target's id is unknown; with a 9-entry camera matrix and 5 distortion coefficients it yields a pose carrying the collection loop's distance; without them it returns the single-tag estimate |
| `MultiTag.CalibratedEstimate` | src/main/java/frc/lib/io/vision/Vision.java:339-350 | with calibration, the pose is the solve over every corner and the rejected targets' tags in order, moved by the inverse camera-to-robot transform; the distance is the least among the rejected targets, or Double.MAX_VALUE |
| `MultiTag.CalibratedAllValidUsesNoTags` | src/main/java/frc/lib/io/vision/Vision.java:307-350 | with calibration and only valid targets, the solver gets the corners but no tags, and the distance returned is Double.MAX_VALUE |
| `MultiTag.FallbackIsSingleTag` | src/main/java/frc/lib/io/vision/Vision.java:326-354 | without usable calibration, the multi-tag result equals the single-tag result iff every id is known |
| `MultiTag.ValidTargetsNotSolvedFor` | src/main/java/frc/lib/io/vision/Vision.java:312-323 | a valid target's tag is never handed to the solver unless an invalid target shares its id |
| `MultiTag.AllValidGivesSolverNoTags` | src/main/java/frc/lib/io/vision/Vision.java:307-324 | when every target is valid, the solver gets no tags and the distance stays Double.MAX_VALUE |
| `Confidence.StandardDeviations` | src/main/java/frc/lib/io/vision/Vision.java:231-236 | the three standard deviations are equal; for a whole-number power they are slope times that power of the distance |
| `Confidence.StdDevsGrowWithDistance` | src/main/java/frc/lib/io/vision/Vision.java:231-236 | for a positive slope and a whole positive power, the standard deviations strictly increase with distance |
| `Confidence.DefaultsAtTwoMeters` | src/main/java/frc/lib/io/vision/Vision.java:57-58 | with the default slope 0.10 and power 2.0, a tag at 2.0 m gives (0.4, 0.4, 0.4) |
| `Vision.Initial` | src/main/java/frc/lib/io/vision/Vision.java:78-85 | after construction, one blank input and one zero timestamp per camera, enabled, not updating, with the given pose filter |
| `Vision.Enable` | src/main/java/frc/lib/io/vision/Vision.java:193-195 | after `enable(b)` the query `IsEnabled` answers b, and nothing else changes |
| `Vision.ProcessPipeline` | src/main/java/frc/lib/io/vision/Vision.java:119-156 | one pipeline's turn: the snapshot is taken in; the timestamp becomes the larger of old and new; a stale snapshot changes nothing else; the log grows by the gated measurement exactly when it exists; a newer snapshot whose multi-tag estimate throws halts with `UnknownTag`, and one whose estimate has no pose halts with `NoPose` (the `return`); conversely an early end is a null pose with no calibration and no candidate, or an unknown id |
| `Vision.MeasurementOnlyThroughGates` | src/main/java/frc/lib/io/vision/Vision.java:124-150 | a pipeline adds a measurement iff its snapshot is newer, its multi-tag estimate has a pose, that pose is within 1000.0 m of the estimate, and vision is enabled |
| `Vision.RunFromTimestamps` | src/main/java/frc/lib/io/vision/Vision.java:119-129 | timestamps never decrease; a finished tick leaves each pipeline at max(old, new) with its new snapshot; an early end leaves every later pipeline untouched |
| `Vision.RunFromLog` | src/main/java/frc/lib/io/vision/Vision.java:118-150 | the measurement log only grows; each new measurement carries the timestamp of a pipeline whose snapshot was newer; the updating flag ends true iff something was added; disabled adds nothing |
| `Vision.RunFromEnds` | src/main/java/frc/lib/io/vision/Vision.java:124-129 | the tick stops at a null pose only for a newer snapshot with no calibration and no candidate, and at an unknown id only for a newer snapshot holding that id |
| `Vision.FinishedTickHadPoses` | src/main/java/frc/lib/io/vision/Vision.java:124-129 | a tick runs to the end only if every newer snapshot from that pipeline on had a known-id multi-tag estimate with a pose; any null pose or throw ends it |
| `Vision.DefaultTunablesAtTwoMeters` | src/main/java/frc/lib/io/vision/Vision.java:53-57 | under the default tunables the convergence threshold is 0.5 m and a tag at 2.0 m gives (0.4, 0.4, 0.4) |
| `Vision.CalibratedAllValidFusedAtDoubleMax` | src/main/java/frc/lib/io/vision/Vision.java:307-350 | a calibrated all-valid snapshot's measurement is fused with the standard deviations for Double.MAX_VALUE, whenever the staleness, divergence and enable gates pass |
| `Vision.RunFrom` | src/main/java/frc/lib/io/vision/Vision.java:119-156 | the loop from any pipeline on keeps one entry per camera and never changes the enable flag |
| `Vision.TickOf` | src/main/java/frc/lib/io/vision/Vision.java:117-157 | one tick: the log only grows, `isVisionUpdating` ends true iff it grew, and a tick that runs to the end has taken in every pipeline's snapshot |
| `Vision.Periodic` | src/main/java/frc/lib/io/vision/Vision.java:117-157 | the loop computes exactly the functional tick, and `isVisionUpdating` ends true iff at least one measurement was added |
| `Vision.StaleTickChangesNothing` | src/main/java/frc/lib/io/vision/Vision.java:123-125 | when no snapshot is newer than its pipeline's last timestamp, the tick only takes the snapshots in and clears the updating flag |
| `Vision.RepeatedTickAddsNothing` | src/main/java/frc/lib/io/vision/Vision.java:124-125 | re-running a finished tick on the same snapshots adds no measurement and moves no timestamp |
| `Vision.DisabledTickAddsNothing` | src/main/java/frc/lib/io/vision/Vision.java:140-150 | while disabled, a tick leaves the pose filter unchanged and reports no update |
| `Vision.PosesHaveConverged` | src/main/java/frc/lib/io/vision/Vision.java:205-221 | true iff some pipeline's single-tag pose is strictly within the convergence threshold of the estimate |
| `Vision.GetBestRobotPose` | src/main/java/frc/lib/io/vision/Vision.java:173-186 | none iff no pipeline has a single-tag pose; otherwise the pose of the first pipeline with the least single-tag distance |
| `Arm.Initial` | src/main/java/frc/robot/subsystems/arm/Arm.java:27-38 | the arm starts in CALIBRATE with extend setpoint 0.2 and both manual speeds zero |
| `Arm.Stop` | src/main/java/frc/robot/subsystems/arm/Arm.java:58-64 | MANUAL (`IsManual` holds) with both manual speeds zero; nothing else changes |
| `Arm.ManualExtend` | src/main/java/frc/robot/subsystems/arm/Arm.java:66-69 | MANUAL with only the extend speed replaced |
| `Arm.ManualRotate` | src/main/java/frc/robot/subsystems/arm/Arm.java:71-74 | MANUAL with only the rotate speed replaced |
| `Arm.HoldHere` | src/main/java/frc/robot/subsystems/arm/Arm.java:76-79 | HOLD (`IsHolding` holds) at the last reading's extension; nothing else changes |
| `Arm.SetExtendSetpoint` | src/main/java/frc/robot/subsystems/arm/Arm.java:162-165 | NORMAL; the setpoint never exceeds the maximum extension; it is the request when in range and the maximum otherwise |
| `Arm.SetRotateSetpoint` | src/main/java/frc/robot/subsystems/arm/Arm.java:167-170 | NORMAL with the rotate setpoint stored as given |
| `Arm.CharacterizeExtend` | src/main/java/frc/robot/subsystems/arm/Arm.java:172-174 | only the mode changes, to EXTEND_CHARACTERIZATION |
| `Arm.CharacterizeRotate` | src/main/java/frc/robot/subsystems/arm/Arm.java:176-178 | only the mode changes, to ROTATE_CHARACTERIZATION |
| `Arm.RunCharacterizationVolts` | src/main/java/frc/robot/subsystems/arm/Arm.java:180-182 | only the characterization voltage changes |
| `Arm.GetCharacterizationVelocity` | src/main/java/frc/robot/subsystems/arm/Arm.java:184-192 | the characterized axis's velocity in the two characterization modes, 0.0 in every other mode |
| `Arm.CheckLimitSwitch` | src/main/java/frc/robot/subsystems/arm/Arm.java:94-100 | a pressed switch outside CALIBRATE gives CALIBRATE when the previous reading is more than 0.1 m from zero, and HOLD there otherwise (only mode and hold position change, as `hold()` writes); else nothing changes |
| `Arm.RunMode` | src/main/java/frc/robot/subsystems/arm/Arm.java:104-159 | the mode switch only ever moves to HOLD (`IsHolding`): from NORMAL iff `Finished`, from MANUAL (`IsManual`) iff retracting below the minimum, from CALIBRATE iff the switch is pressed; the new hold position is the reading, or 0 from CALIBRATE; only mode and hold position change, and when the mode stays nothing changes |
| `Arm.StoppedReadsOnlySensors` | src/main/java/frc/robot/subsystems/arm/Arm.java:204-207 | `IsStopped` compares signed velocities, so any reverse motion counts as stopped, and no command other than `periodic` changes its answer |
| `Arm.Periodic` | src/main/java/frc/robot/subsystems/arm/Arm.java:86-160 | nothing changes while the driver station is disabled; otherwise only mode, hold position and stored reading change, and the mode stays or becomes HOLD or CALIBRATE; with the entry switch released and the mode unchanged, only the stored reading changes |
| `Arm.CalibrateUntilLimitSwitch` | src/main/java/frc/robot/subsystems/arm/Arm.java:149-158 | in CALIBRATE a pressed switch gives HOLD at 0; otherwise the arm stays in CALIBRATE |
| `Arm.PressedLimitSwitchEndsInHold` | src/main/java/frc/robot/subsystems/arm/Arm.java:94-158 | when both switch reads are pressed, every mode ends the tick in HOLD at a position within 0.1 m of zero |
| `Arm.NormalHoldsWhenFinished` | src/main/java/frc/robot/subsystems/arm/Arm.java:116-121 | in NORMAL the arm moves to HOLD at the fresh reading iff `Finished` (within 0.005 of the setpoint) then holds, and otherwise stays NORMAL |
| `Arm.ManualHoldsBelowMinimum` | src/main/java/frc/robot/subsystems/arm/Arm.java:105-115 | in MANUAL the arm leaves only for HOLD, and does so iff it is retracting below the minimum extension |
| `Arm.RunPreservesInvariant` | src/main/java/frc/robot/subsystems/arm/Arm.java:162-165 | over any sequence of commands and periodic steps, the mode never becomes DISABLED and the extend setpoint stays at most max(0.2, maximum extension) |
| `Arm.ReachableStatesKeepInvariant` | src/main/java/frc/robot/subsystems/arm/Arm.java:17-27 | from construction, no sequence of events reaches DISABLED (no method ever sets it) or an over-range setpoint |

## Left out

- Pose algebra (`transformBy`, `inverse`, `toPose2d`, planar norms) is uninterpreted. It is floating-point 3D geometry from WPILib. So the property "with an identity camera-to-robot transform the multi-tag pose is the solved camera pose" is not stated: it needs the algebra's laws.
- `VisionEstimation.estimateCamPosePNP` is an opaque function parameter. It is an external numerical solver.
- `Confidence.StdDevsGrowWithDistance`: monotonicity is proved only for whole-number powers. `Math.pow` is an abstract parameter, and the default power 2.0 is a whole number.
- Floating point in general: doubles are exact reals. NaN, infinities and rounding are not modelled. Double.MAX_VALUE is its 17-digit decimal value 1.7976931348623157e308, which rounds to the double; its exact binary value is (2^53-1)·2^971, slightly larger.
- The tunable numbers (slope, power, convergence threshold) are fixed parameters of a tick. Live mutation between reads is not modelled.
- The pose filter is an injected estimate plus an append-only log. How the estimate moves when a measurement is added is the caller's `absorb` function.
- Shuffleboard, `Logger` outputs and the per-tick reset of the two TagPose/NVRobotPose slots are left out. They are telemetry only.
- Layout loading and its IOException fallback to an empty layout are left out. The layout is a given map, and an empty map behaves like the fallback.
- `VisionIO.updateInputs` is not part of this model. Each tick's snapshots are a parameter. The initial contents of `VisionIOInputs` are a parameter of `Vision.Initial`.
- The equal count of pipelines and camera transforms is a precondition (`WellFormed`). The constructor documentation demands it, and the source does not check it.
- Arm PID outputs, motor voltages and velocities, `BACK_FORCE`, encoder resets, `simulationPeriodic` and `initSendable` are left out. They are control numerics and hardware calls.
- The unused `angle` field and `ROTATE_TOLERANCE_DEGREES` are not modelled. Nothing reads them.
- The two reads of the arm limit switch in one `periodic` call (Arm.java:94 and :150) are separate inputs. The arm's other state-changing decisions read the stored `armIOInputs`, as in the source.
- `EffectorIOPhysical` and the arm command classes are left out. They are hardware adapters and scheduler wiring that only call the Arm methods modelled here.

=== FILE: arm.dfy ===
/**
  The arm's mode state machine (frc/robot/subsystems/arm/Arm.java): the command methods
  that switch mode and store setpoints, and the mode transitions `periodic` makes from
  the limit switch, the position reading and the extension limits. Motor outputs and
  PID numerics are left out; only mode and setpoint state is kept.
 */
module Arm {

  datatype ArmMode =
    | Normal
    | ExtendCharacterization
    | RotateCharacterization
    | Manual
    | Disabled
    | Hold
    | Calibrate

  /** The last sensor reading the subsystem took in (`armIOInputs`). */
  datatype ArmInputs = ArmInputs(extendPosition: real, extendVelocity: real, rotateVelocity: real)

  /** The robot's configured extension range (`RobotConstants.armExtendMax/Min`). */
  datatype ArmLimits = ArmLimits(armExtendMax: real, armExtendMin: real)

  datatype ArmState = ArmState(
    mode: ArmMode,
    holdPosition: real,
    characterizationVoltage: real,
    extendSetpoint: real,
    rotateSetpoint: real,
    manualExtend: real,
    manualRotate: real,
    inputs: ArmInputs)

  /**
    What one call of `periodic` observes: whether the driver station is disabled, the
    limit switch as read on entry, the fresh sensor reading, and the limit switch as read
    again inside the mode switch (two separate hardware reads).
   */
  datatype ArmSensors = ArmSensors(
    driverStationDisabled: bool,
    limitSwitchOnEntry: bool,
    reading: ArmInputs,
    limitSwitchInMode: bool)

  const ExtendToleranceMeters: real := 0.005
  /** Beyond this distance from zero, a pressed limit switch means the encoder has drifted. */
  const CalibrateThresholdMeters: real := 0.1
  const InitialExtendSetpoint: real := 0.2
  const StoppedVelocity: real := 0.1

  function Abs(x: real): real
  {
    if x < 0.0 then -x else x
  }

  function Min(a: real, b: real): real
  {
    if a < b then a else b
  }

  /** The constructor, which takes one sensor reading; the arm starts out calibrating. */
  function Initial(first: ArmInputs): (a: ArmState)
    ensures a.mode == Calibrate && a.extendSetpoint == InitialExtendSetpoint
    ensures a.manualExtend == 0.0 && a.manualRotate == 0.0 && a.inputs == first
  {
    ArmState(Calibrate, 0.0, 0.0, InitialExtendSetpoint, 0.0, 0.0, 0.0, first)
  }

  predicate IsManual(a: ArmState)
  {
    a.mode == Manual
  }

  predicate IsHolding(a: ArmState)
  {
    a.mode == Hold
  }

  /** `stop()`: manual mode with both manual speeds zeroed; nothing else changes. */
  function Stop(a: ArmState): (r: ArmState)
    ensures IsManual(r) && r.manualExtend == 0.0 && r.manualRotate == 0.0
    ensures r.(mode := a.mode, manualExtend := a.manualExtend, manualRotate := a.manualRotate) == a
  {
    a.(mode := Manual, manualExtend := 0.0, manualRotate := 0.0)
  }

  /** `manualExtend(d)`: manual mode, and only the extend speed is replaced. */
  function ManualExtend(a: ArmState, direction: real): (r: ArmState)
    ensures IsManual(r) && r.manualExtend == direction
    ensures r.(mode := a.mode, manualExtend := a.manualExtend) == a
  {
    a.(mode := Manual, manualExtend := direction)
  }

  /** `manualRotate(d)`: manual mode, and only the rotate speed is replaced. */
  function ManualRotate(a: ArmState, direction: real): (r: ArmState)
    ensures IsManual(r) && r.manualRotate == direction
    ensures r.(mode := a.mode, manualRotate := a.manualRotate) == a
  {
    a.(mode := Manual, manualRotate := direction)
  }

  /** `hold()`: hold wherever the last reading put the arm. */
  function HoldHere(a: ArmState): (r: ArmState)
    ensures IsHolding(r) && r.holdPosition == a.inputs.extendPosition
    ensures r.(mode := a.mode, holdPosition := a.holdPosition) == a
  {
    a.(holdPosition := a.inputs.extendPosition, mode := Hold)
  }

  /**
    `setExtendSetpoint(s)`: normal mode with the setpoint clamped to the maximum
    extension: it is `s` when that is within range and the maximum otherwise.
   */
  function SetExtendSetpoint(limits: ArmLimits, a: ArmState, setpoint: real): (r: ArmState)
    ensures r.mode == Normal && r.extendSetpoint <= limits.armExtendMax
    ensures setpoint <= limits.armExtendMax ==> r.extendSetpoint == setpoint
    ensures limits.armExtendMax < setpoint ==> r.extendSetpoint == limits.armExtendMax
    ensures r.(mode := a.mode, extendSetpoint := a.extendSetpoint) == a
  {
    a.(mode := Normal, extendSetpoint := Min(limits.armExtendMax, setpoint))
  }

  /** `setRotateSetpoint(s)`: normal mode, rotate setpoint stored unclamped. */
  function SetRotateSetpoint(a: ArmState, setpoint: real): (r: ArmState)
    ensures r.mode == Normal && r.rotateSetpoint == setpoint
    ensures r.(mode := a.mode, rotateSetpoint := a.rotateSetpoint) == a
  {
    a.(mode := Normal, rotateSetpoint := setpoint)
  }

  function CharacterizeExtend(a: ArmState): (r: ArmState)
    ensures r.mode == ExtendCharacterization && r.(mode := a.mode) == a
  {
    a.(mode := ExtendCharacterization)
  }

  function CharacterizeRotate(a: ArmState): (r: ArmState)
    ensures r.mode == RotateCharacterization && r.(mode := a.mode) == a
  {
    a.(mode := RotateCharacterization)
  }

  function RunCharacterizationVolts(a: ArmState, volts: real): (r: ArmState)
    ensures r.characterizationVoltage == volts && r.(characterizationVoltage := a.characterizationVoltage) == a
  {
    a.(characterizationVoltage := volts)
  }

  /**
    `getCharacterizationVelocity()`: the velocity of the axis being characterized, and
    zero in every other mode.
   */
  function GetCharacterizationVelocity(a: ArmState): (r: real)
    ensures a.mode == ExtendCharacterization ==> r == a.inputs.extendVelocity
    ensures a.mode == RotateCharacterization ==> r == a.inputs.rotateVelocity
    ensures a.mode != ExtendCharacterization && a.mode != RotateCharacterization ==> r == 0.0
  {
    if a.mode == ExtendCharacterization then a.inputs.extendVelocity
    else if a.mode == RotateCharacterization then a.inputs.rotateVelocity
    else 0.0
  }

  /** `isStopped()`: both velocities at most 0.1 (signed, not absolute). */
  predicate IsStopped(a: ArmState)
  {
    a.inputs.extendVelocity <= StoppedVelocity && a.inputs.rotateVelocity <= StoppedVelocity
  }

  /**
    `isStopped()` compares signed velocities, so any reverse motion counts as stopped; it
    reads only the last sensor reading, so no command changes it.
   */
  lemma StoppedReadsOnlySensors(limits: ArmLimits, a: ArmState, e: ArmEvent)
    requires !e.PeriodicEvent?
    ensures a.inputs.extendVelocity <= 0.0 && a.inputs.rotateVelocity <= 0.0 ==> IsStopped(a)
    ensures IsStopped(Apply(limits, a, e)) == IsStopped(a)
  {
  }

  /** `finished()`: the last reading is within tolerance of the extend setpoint. */
  predicate Finished(a: ArmState)
  {
    Abs(a.inputs.extendPosition - a.extendSetpoint) <= ExtendToleranceMeters
  }

  /**
    The limit-switch check on entry to `periodic`, made with the PREVIOUS reading: a pressed
    switch outside calibration means recalibrate if the arm thought it was more than 0.1 m
    out, and hold where it is otherwise.
   */
  function CheckLimitSwitch(a: ArmState, pressed: bool): (r: ArmState)
    ensures r == a || r == a.(mode := Calibrate) || r == a.(mode := Hold, holdPosition := a.inputs.extendPosition)
    ensures !pressed || a.mode == Calibrate ==> r == a
    ensures pressed && a.mode != Calibrate && Abs(a.inputs.extendPosition) > CalibrateThresholdMeters ==>
              r == a.(mode := Calibrate)
    ensures pressed && a.mode != Calibrate && Abs(a.inputs.extendPosition) <= CalibrateThresholdMeters ==>
              r.mode == Hold && r.holdPosition == a.inputs.extendPosition && Abs(r.holdPosition) <= CalibrateThresholdMeters
  {
    if pressed && a.mode != Calibrate then
      if Abs(a.inputs.extendPosition) > CalibrateThresholdMeters then a.(mode := Calibrate) else HoldHere(a)
    else
      a
  }

  /**
    The mode switch of `periodic`, after the fresh reading has been taken in. It can only
    move the arm to HOLD: from NORMAL exactly when `finished()`, from MANUAL exactly when
    retracting below the minimum, from CALIBRATE exactly when the switch is pressed. Only
    the mode and the hold position change.
   */
  function RunMode(limits: ArmLimits, a: ArmState, limitSwitch: bool): (r: ArmState)
    ensures r.mode == a.mode || IsHolding(r)
    ensures r.mode == a.mode ==> r == a
    ensures r.(mode := a.mode, holdPosition := a.holdPosition) == a
    ensures a.mode == Normal ==> (IsHolding(r) <==> Finished(a))
    ensures IsManual(a) ==> (IsHolding(r) <==> a.inputs.extendPosition < limits.armExtendMin && a.manualExtend < 0.0)
    ensures a.mode == Calibrate ==> (IsHolding(r) <==> limitSwitch)
    ensures IsHolding(r) && !IsHolding(a) ==>
              r.holdPosition == (if a.mode == Calibrate then 0.0 else a.inputs.extendPosition)
  {
    match a.mode
    case Manual =>
      if a.inputs.extendPosition > limits.armExtendMax && a.manualExtend > 0.0 then a
      else if a.inputs.extendPosition < limits.armExtendMin && a.manualExtend < 0.0 then HoldHere(a)
      else a
    case Normal =>
      if Abs(a.inputs.extendPosition - a.extendSetpoint) <= ExtendToleranceMeters then HoldHere(a) else a
    case Calibrate =>
      if limitSwitch then a.(holdPosition := 0.0, mode := Hold) else a
    case _ => a
  }

  /**
    `periodic()`. While the driver station is disabled nothing changes. Otherwise only the
    mode, the hold position and the stored reading change, and the mode either stays or
    becomes HOLD or CALIBRATE.
   */
  function Periodic(limits: ArmLimits, a: ArmState, sensors: ArmSensors): (r: ArmState)
    ensures sensors.driverStationDisabled ==> r == a
    ensures !sensors.driverStationDisabled ==> r.inputs == sensors.reading
    ensures r.mode == a.mode || r.mode == Hold || r.mode == Calibrate
    ensures r.(mode := a.mode, holdPosition := a.holdPosition, inputs := a.inputs) == a
    ensures !sensors.driverStationDisabled && !sensors.limitSwitchOnEntry && r.mode == a.mode ==>
              r == a.(inputs := sensors.reading)
  {
    if sensors.driverStationDisabled then a
    else
      var checked := CheckLimitSwitch(a, sensors.limitSwitchOnEntry);
      RunMode(limits, checked.(inputs := sensors.reading), sensors.limitSwitchInMode)
  }

  /** In CALIBRATE, a pressed switch zeroes the hold position and holds; otherwise calibration goes on. */
  lemma CalibrateUntilLimitSwitch(limits: ArmLimits, a: ArmState, sensors: ArmSensors)
    requires !sensors.driverStationDisabled && a.mode == Calibrate
    ensures var r := Periodic(limits, a, sensors);
      && (sensors.limitSwitchInMode ==> r.mode == Hold && r.holdPosition == 0.0)
      && (!sensors.limitSwitchInMode ==> r.mode == Calibrate && r.holdPosition == a.holdPosition)
  {
  }

  /**
    When both reads of the limit switch see it pressed, the arm always ends the tick
    holding, at a position no more than 0.1 m from zero.
   */
  lemma PressedLimitSwitchEndsInHold(limits: ArmLimits, a: ArmState, sensors: ArmSensors)
    requires !sensors.driverStationDisabled && sensors.limitSwitchOnEntry && sensors.limitSwitchInMode
    ensures Periodic(limits, a, sensors).mode == Hold
    ensures Abs(Periodic(limits, a, sensors).holdPosition) <= CalibrateThresholdMeters
  {
  }

  /**
    In NORMAL (switch released) the arm moves to HOLD, at the fresh reading, exactly when
    that reading is within tolerance of the setpoint, i.e. exactly when `finished()` holds.
   */
  lemma NormalHoldsWhenFinished(limits: ArmLimits, a: ArmState, sensors: ArmSensors)
    requires !sensors.driverStationDisabled && !sensors.limitSwitchOnEntry && a.mode == Normal
    ensures var r := Periodic(limits, a, sensors);
      && (r.mode == Normal || r.mode == Hold)
      && (r.mode == Hold <==> Finished(r))
      && (r.mode == Hold ==> r.holdPosition == sensors.reading.extendPosition)
  {
  }

  /**
    In MANUAL (switch released) the arm leaves manual mode only to hold, and does so
    exactly when it is retracting below the minimum extension.
   */
  lemma ManualHoldsBelowMinimum(limits: ArmLimits, a: ArmState, sensors: ArmSensors)
    requires !sensors.driverStationDisabled && !sensors.limitSwitchOnEntry && a.mode == Manual
    ensures var r := Periodic(limits, a, sensors);
      && (r.mode == Manual || r.mode == Hold)
      && (r.mode == Hold <==> sensors.reading.extendPosition < limits.armExtendMin && a.manualExtend < 0.0)
  {
  }

  /** Everything that can happen to the arm. */
  datatype ArmEvent =
    | StopEvent
    | ManualExtendEvent(direction: real)
    | ManualRotateEvent(direction: real)
    | HoldEvent
    | SetExtendSetpointEvent(setpoint: real)
    | SetRotateSetpointEvent(setpoint: real)
    | CharacterizeExtendEvent
    | CharacterizeRotateEvent
    | RunCharacterizationVoltsEvent(volts: real)
    | PeriodicEvent(sensors: ArmSensors)

  function Apply(limits: ArmLimits, a: ArmState, e: ArmEvent): ArmState
  {
    match e
    case StopEvent => Stop(a)
    case ManualExtendEvent(d) => ManualExtend(a, d)
    case ManualRotateEvent(d) => ManualRotate(a, d)
    case HoldEvent => HoldHere(a)
    case SetExtendSetpointEvent(s) => SetExtendSetpoint(limits, a, s)
    case SetRotateSetpointEvent(s) => SetRotateSetpoint(a, s)
    case CharacterizeExtendEvent => CharacterizeExtend(a)
    case CharacterizeRotateEvent => CharacterizeRotate(a)
    case RunCharacterizationVoltsEvent(v) => RunCharacterizationVolts(a, v)
    case PeriodicEvent(sensors) => Periodic(limits, a, sensors)
  }

  /** The state after a sequence of events, applied in order. */
  function Run(limits: ArmLimits, a: ArmState, events: seq<ArmEvent>): ArmState
    decreases |events|
  {
    if |events| == 0 then a else Run(limits, Apply(limits, a, events[0]), events[1..])
  }

  /**
    What holds in every reachable state: the DISABLED mode is never entered (no method
    sets it), and the extend setpoint never exceeds the larger of the maximum extension
    and its initial value.
   */
  predicate ArmInvariant(limits: ArmLimits, a: ArmState)
  {
    a.mode != Disabled && a.extendSetpoint <= if limits.armExtendMax < InitialExtendSetpoint then InitialExtendSetpoint else limits.armExtendMax
  }

  lemma ApplyPreservesInvariant(limits: ArmLimits, a: ArmState, e: ArmEvent)
    requires ArmInvariant(limits, a)
    ensures ArmInvariant(limits, Apply(limits, a, e))
  {
  }

  lemma {:induction false} RunPreservesInvariant(limits: ArmLimits, a: ArmState, events: seq<ArmEvent>)
    requires ArmInvariant(limits, a)
    ensures ArmInvariant(limits, Run(limits, a, events))
    decreases |events|
  {
    if |events| > 0 {
      ApplyPreservesInvariant(limits, a, events[0]);
      RunPreservesInvariant(limits, Apply(limits, a, events[0]), events[1..]);
    }
  }

  /** From construction, no sequence of events reaches DISABLED or an over-range setpoint. */
  lemma ReachableStatesKeepInvariant(limits: ArmLimits, first: ArmInputs, events: seq<ArmEvent>)
    ensures Run(limits, Initial(first), events).mode != Disabled
    ensures ArmInvariant(limits, Run(limits, Initial(first), events))
  {
    RunPreservesInvariant(limits, Initial(first), events);
  }
}

=== FILE: confidence.dfy ===
/**
  The confidence model (Vision.getStandardDeviations): the farther the tag, the larger
  the standard deviations handed to the pose filter. `Math.pow` is supplied by the
  caller; `NatPow` is exponentiation by a whole number, used to state monotonicity.
 */
module Confidence {
  import opened VisionConstants

  /** Standard deviations of one vision measurement: x, y and heading. */
  datatype StdDevs = StdDevs(x: real, y: real, theta: real)

  /** `Math.pow(base, exponent)`, left to the caller. */
  type Pow = (real, real) -> real

  /** `base` multiplied by itself `n` times. */
  function NatPow(base: real, n: nat): real
    decreases n
  {
    if n == 0 then 1.0 else base * NatPow(base, n - 1)
  }

  /**
    All three axes carry the same value, `slope * distance^power`. With a whole
    positive power the value is that power of the distance, scaled by the slope.
   */
  function StandardDeviations(pow: Pow, slope: real, power: real, distance: real): (r: StdDevs)
    ensures r.x == r.y == r.theta
    ensures forall n: nat :: power == n as real && pow(distance, power) == NatPow(distance, n) ==>
              r.x == slope * NatPow(distance, n)
  {
    var trust := slope * pow(distance, power);
    StdDevs(trust, trust, trust)
  }

  lemma {:induction false} NatPowNonNegative(base: real, n: nat)
    requires 0.0 <= base
    ensures 0.0 <= NatPow(base, n)
    decreases n
  {
    if n > 0 {
      NatPowNonNegative(base, n - 1);
    }
  }

  /** A whole positive power is strictly increasing on non-negative bases. */
  lemma {:induction false} NatPowStrictlyIncreasing(a: real, b: real, n: nat)
    requires 0.0 <= a < b && 1 <= n
    ensures NatPow(a, n) < NatPow(b, n)
    decreases n
  {
    if n > 1 {
      NatPowStrictlyIncreasing(a, b, n - 1);
      NatPowNonNegative(a, n - 1);
      // a * a^(n-1) <= a * b^(n-1) < b * b^(n-1)
      assert a * NatPow(a, n - 1) <= a * NatPow(b, n - 1);
      assert a * NatPow(b, n - 1) < b * NatPow(b, n - 1);
    }
  }

  /**
    Farther tags are trusted less: for a positive slope and a whole positive power,
    the standard deviations grow strictly with distance.
   */
  lemma StdDevsGrowWithDistance(pow: Pow, slope: real, n: nat, d1: real, d2: real)
    requires 0.0 < slope && 1 <= n && 0.0 <= d1 < d2
    requires pow(d1, n as real) == NatPow(d1, n) && pow(d2, n as real) == NatPow(d2, n)
    ensures StandardDeviations(pow, slope, n as real, d1).x < StandardDeviations(pow, slope, n as real, d2).x
  {
    NatPowStrictlyIncreasing(d1, d2, n);
  }

  /** With the default tunables, a tag 2.0 m away gives (0.4, 0.4, 0.4). */
  lemma DefaultsAtTwoMeters(pow: Pow)
    requires pow(2.0, 2.0) == NatPow(2.0, 2)
    ensures StandardDeviations(pow, DefaultStdDevSlope, DefaultStdDevPower, 2.0) == StdDevs(0.4, 0.4, 0.4)
  {
    assert NatPow(2.0, 2) == 4.0;
  }
}

=== FILE: geometry.dfy ===
/**
  Rigid-body geometry of the field, kept uninterpreted.

  The vision code composes poses and transforms (WPILib's `Pose3d.transformBy`,
  `Transform3d.inverse`, `Pose3d.toPose2d`, `Pose2d.minus(..).getTranslation().getNorm()`).
  None of the selection and gating logic depends on what these operations compute,
  so the types are opaque and the operations are supplied by the caller as a `Frames` record.
 */
module Geometry {

  /** A field-frame pose in three dimensions. */
  type Pose3d(==)

  /** A field-frame pose in the plane (x, y, heading). */
  type Pose2d(==)

  /** A rigid transform between two frames. */
  type Transform3d(==)

  /** The pose algebra the vision code relies on. */
  datatype Frames = Frames(
    /** `pose.transformBy(t)`, also what `pose.plus(t)` computes */
    transformBy: (Pose3d, Transform3d) -> Pose3d,
    /** `t.inverse()` */
    inverse: Transform3d -> Transform3d,
    /** `pose.toPose2d()` */
    toPose2d: Pose3d -> Pose2d,
    /** `a.minus(b).getTranslation().getNorm()`: the planar distance between two poses */
    planarGap: (Pose2d, Pose2d) -> real,
    /** `new Pose3d()`: the field origin */
    origin: Pose3d)
}

=== FILE: multi_tag.dfy ===
/**
  The multi-tag estimator (Vision.getRobotPoseMultiTag): collects corners and known tag
  poses, solves for the camera pose when calibration data is present, and otherwise
  falls back to the single-tag estimate.

  The source's validity test in the collection loop is inverted: valid targets are
  skipped and the others have their field pose looked up with an unchecked `get()`,
  which throws for an id the layout does not know. This is kept as written; the throw
  is the `Err` outcome carrying the offending id.
 */
module MultiTag {
  import opened Outcomes
  import opened Geometry
  import opened VisionConstants
  import opened Targets
  import opened SingleTag

  /** A tag id with its field pose, as handed to the solver. */
  datatype AprilTag = AprilTag(id: int, pose: Pose3d)

  /** What the collection loop accumulates. */
  datatype Gathered = Gathered(visCorners: seq<Corner>, knownVisTags: seq<AprilTag>, distance: real)

  /** The external multi-point pose solver: camera matrix, distortion, corners, tags to field-to-camera. */
  type PnpSolver = (seq<real>, seq<real>, seq<Corner>, seq<AprilTag>) -> Transform3d

  /** Every corner of every target, in detection order. */
  function AllCorners(targets: seq<Detection>): seq<Corner>
    decreases |targets|
  {
    if |targets| == 0 then [] else targets[0].detectedCorners + AllCorners(targets[1..])
  }

  lemma {:induction false} AllCornersAppend(targets: seq<Detection>, t: Detection)
    ensures AllCorners(targets + [t]) == AllCorners(targets) + t.detectedCorners
    decreases |targets|
  {
    if |targets| == 0 {
      assert targets + [t] == [t];
    } else {
      assert (targets + [t])[1..] == targets[1..] + [t];
      AllCornersAppend(targets[1..], t);
    }
  }

  /**
    The tags handed to the solver, stated independently of the loop: in detection order,
    one entry per target the validator REJECTS (duplicates kept), each with its field pose.
   */
  function RejectedTags(layout: Layout, targets: seq<Detection>): seq<AprilTag>
    requires forall k :: 0 <= k < |targets| ==> targets[k].fiducialId in layout
    decreases |targets|
  {
    if |targets| == 0 then []
    else
      var t := targets[0];
      (if IsValidTarget(layout, t) then [] else [AprilTag(t.fiducialId, layout[t.fiducialId])])
      + RejectedTags(layout, targets[1..])
  }

  lemma {:induction false} RejectedTagsAppend(layout: Layout, targets: seq<Detection>, t: Detection)
    requires forall k :: 0 <= k < |targets| ==> targets[k].fiducialId in layout
    requires t.fiducialId in layout
    ensures RejectedTags(layout, targets + [t])
            == RejectedTags(layout, targets)
               + (if IsValidTarget(layout, t) then [] else [AprilTag(t.fiducialId, layout[t.fiducialId])])
    decreases |targets|
  {
    if |targets| == 0 {
      assert targets + [t] == [t];
    } else {
      assert (targets + [t])[1..] == targets[1..] + [t];
      RejectedTagsAppend(layout, targets[1..], t);
    }
  }

  /** The first target, in detection order, whose id the layout does not know. */
  ghost predicate IsFirstUnknown(layout: Layout, targets: seq<Detection>, k: int)
  {
    && 0 <= k < |targets|
    && targets[k].fiducialId !in layout
    && forall j :: 0 <= j < k ==> targets[j].fiducialId in layout
  }

  /**
    The collection loop, defined on prefixes (`Gather(layout, targets[..k])` is the loop
    state after `k` targets). It throws exactly when some id is unknown, reporting the
    first; otherwise the corners are all corners, the known tags are exactly those of the
    targets the validator REJECTS, and the distance is the least distance among those
    rejected targets, or Double.MAX_VALUE when it is smaller.
   */
  function Gather(layout: Layout, targets: seq<Detection>): (r: Result<Gathered, int>)
    ensures r.Err? <==> exists k :: 0 <= k < |targets| && targets[k].fiducialId !in layout
    ensures r.Err? ==> exists k :: IsFirstUnknown(layout, targets, k) && r.error == targets[k].fiducialId
    ensures r.Ok? ==> r.value.visCorners == AllCorners(targets)
    ensures r.Ok? ==> forall i :: 0 <= i < |r.value.knownVisTags| ==>
                        exists k :: 0 <= k < |targets| && !IsValidTarget(layout, targets[k])
                                    && r.value.knownVisTags[i] == AprilTag(targets[k].fiducialId, layout[targets[k].fiducialId])
    ensures r.Ok? ==> forall k :: 0 <= k < |targets| && !IsValidTarget(layout, targets[k]) ==>
                        AprilTag(targets[k].fiducialId, layout[targets[k].fiducialId]) in r.value.knownVisTags
    ensures r.Ok? ==> r.value.distance <= DoubleMax
    ensures r.Ok? ==> forall k :: 0 <= k < |targets| && !IsValidTarget(layout, targets[k]) ==>
                        r.value.distance <= targets[k].planarDistance
    ensures r.Ok? ==> r.value.distance == DoubleMax
                      || exists k :: 0 <= k < |targets| && !IsValidTarget(layout, targets[k])
                                     && r.value.distance == targets[k].planarDistance
    decreases |targets|
  {
    if |targets| == 0 then Ok(Gathered([], [], DoubleMax))
    else
      var earlier := targets[..|targets| - 1];
      var t := targets[|targets| - 1];
      assert targets == earlier + [t];
      AllCornersAppend(earlier, t);
      match Gather(layout, earlier)
      case Err(id) => Err(id)
      case Ok(g) =>
        var corners := g.visCorners + t.detectedCorners;
        if IsValidTarget(layout, t) then
          Ok(g.(visCorners := corners))
        else if TagPose(layout, t.fiducialId).None? then
          Err(t.fiducialId)
        else
          var tagPose := TagPose(layout, t.fiducialId).value;
          var distance := if t.planarDistance < g.distance then t.planarDistance else g.distance;
          Ok(Gathered(corners, g.knownVisTags + [AprilTag(t.fiducialId, tagPose)], distance))
  }

  /**
    The solver's tag list in full: exactly the rejected targets' tags, in detection order
    and with duplicates, as `RejectedTags` states them.
   */
  lemma {:induction false} GatherTagsInOrder(layout: Layout, targets: seq<Detection>)
    requires forall k :: 0 <= k < |targets| ==> targets[k].fiducialId in layout
    ensures Gather(layout, targets).Ok? && Gather(layout, targets).value.knownVisTags == RejectedTags(layout, targets)
    decreases |targets|
  {
    if |targets| > 0 {
      var earlier := targets[..|targets| - 1];
      var t := targets[|targets| - 1];
      assert targets == earlier + [t];
      assert forall k :: 0 <= k < |earlier| ==> earlier[k] == targets[k];
      GatherTagsInOrder(layout, earlier);
      RejectedTagsAppend(layout, earlier, t);
    }
  }

  /** Calibration is usable only as a 9-entry camera matrix together with 5 distortion coefficients. */
  predicate HasCalibData(snap: Snapshot)
  {
    && snap.cameraMatrix.Some? && |snap.cameraMatrix.value| == 9
    && snap.distCoeffs.Some? && |snap.distCoeffs.value| == 5
  }

  /**
    The robot pose from a multi-point solve: the solver's field-to-camera transform applied
    to the origin pose, then the inverse camera-to-robot transform.
   */
  function SolvedRobotPose(frames: Frames, solve: PnpSolver, cameraToRobot: Transform3d, snap: Snapshot,
                           corners: seq<Corner>, tags: seq<AprilTag>): Pose3d
    requires HasCalibData(snap)
  {
    var fieldToCamera := solve(snap.cameraMatrix.value, snap.distCoeffs.value, corners, tags);
    frames.transformBy(frames.transformBy(frames.origin, fieldToCamera), frames.inverse(cameraToRobot))
  }

  /**
    The multi-tag estimate of one pipeline. It fails exactly when a target has an id the
    layout does not know (even when the result would have come from the fallback). With
    calibration it yields a pose and the collection loop's distance (`CalibratedEstimate`
    says what both are); without, it is the single-tag estimate.
   */
  function EstimateMultiTag(frames: Frames, solve: PnpSolver, layout: Layout,
                            cameraToRobot: Transform3d, snap: Snapshot): (r: Result<PoseAndDistance, int>)
    ensures r.Err? <==> exists k :: 0 <= k < |snap.targets| && snap.targets[k].fiducialId !in layout
    ensures r.Ok? && HasCalibData(snap) ==> r.value.robotPose.Some?
    ensures r.Ok? && HasCalibData(snap) ==>
              Gather(layout, snap.targets).Ok? && r.value.distanceToAprilTag == Gather(layout, snap.targets).value.distance
    ensures r.Ok? && !HasCalibData(snap) ==>
              r.value == EstimateSingleTag(frames, layout, cameraToRobot, snap.targets)
  {
    match Gather(layout, snap.targets)
    case Err(id) => Err(id)
    case Ok(g) =>
      if HasCalibData(snap) then
        Ok(PoseAndDistance(Some(SolvedRobotPose(frames, solve, cameraToRobot, snap, g.visCorners, g.knownVisTags)),
                           g.distance))
      else
        Ok(EstimateSingleTag(frames, layout, cameraToRobot, snap.targets))
  }

  /**
    The calibrated branch in full: the pose is solved from every corner and from the tags
    of the targets the validator REJECTS, in detection order; the distance returned with
    it is the least among those rejected targets, or Double.MAX_VALUE when none is nearer.
   */
  lemma CalibratedEstimate(frames: Frames, solve: PnpSolver, layout: Layout,
                           cameraToRobot: Transform3d, snap: Snapshot)
    requires HasCalibData(snap)
    requires forall k :: 0 <= k < |snap.targets| ==> snap.targets[k].fiducialId in layout
    ensures EstimateMultiTag(frames, solve, layout, cameraToRobot, snap).Ok?
    ensures EstimateMultiTag(frames, solve, layout, cameraToRobot, snap).value.robotPose
            == Some(SolvedRobotPose(frames, solve, cameraToRobot, snap, AllCorners(snap.targets),
                                    RejectedTags(layout, snap.targets)))
    ensures var r := EstimateMultiTag(frames, solve, layout, cameraToRobot, snap);
      && (forall k :: 0 <= k < |snap.targets| && !IsValidTarget(layout, snap.targets[k]) ==>
            r.value.distanceToAprilTag <= snap.targets[k].planarDistance)
      && (r.value.distanceToAprilTag == DoubleMax
          || exists k :: 0 <= k < |snap.targets| && !IsValidTarget(layout, snap.targets[k])
                         && r.value.distanceToAprilTag == snap.targets[k].planarDistance)
  {
    GatherTagsInOrder(layout, snap.targets);
  }

  /**
    The consequence of the inverted test with calibration: when every target is valid,
    the solver is given the corners but no tags, and the distance returned with the pose
    is Double.MAX_VALUE.
   */
  lemma CalibratedAllValidUsesNoTags(frames: Frames, solve: PnpSolver, layout: Layout,
                                     cameraToRobot: Transform3d, snap: Snapshot)
    requires HasCalibData(snap)
    requires forall k :: 0 <= k < |snap.targets| ==> IsValidTarget(layout, snap.targets[k])
    ensures EstimateMultiTag(frames, solve, layout, cameraToRobot, snap)
            == Ok(PoseAndDistance(Some(SolvedRobotPose(frames, solve, cameraToRobot, snap, AllCorners(snap.targets), [])),
                                  DoubleMax))
  {
    AllValidGivesSolverNoTags(layout, snap.targets);
  }

  /**
    The validator decides what each estimator does with a lone target: the single-tag
    estimator uses it exactly when it is valid and in range, and (for a known id) the
    multi-tag loop hands its tag to the solver exactly when it is NOT valid.
   */
  lemma ValidatorOnOneTarget(frames: Frames, layout: Layout, cameraToRobot: Transform3d, t: Detection)
    ensures EstimateSingleTag(frames, layout, cameraToRobot, [t]).robotPose.Some?
            <==> IsValidTarget(layout, t) && t.planarDistance < MaxDistanceToTargetMeters
    ensures t.fiducialId in layout ==>
              Gather(layout, [t]).Ok? && (Gather(layout, [t]).value.knownVisTags == [] <==> IsValidTarget(layout, t))
  {
    SingleTagIsClosestCandidate(frames, layout, cameraToRobot, [t]);
  }

  /**
    Fallback: without calibration the multi-tag estimate is the single-tag estimate
    exactly when no target carries an unknown id.
   */
  lemma FallbackIsSingleTag(frames: Frames, solve: PnpSolver, layout: Layout,
                            cameraToRobot: Transform3d, snap: Snapshot)
    requires !HasCalibData(snap)
    ensures EstimateMultiTag(frames, solve, layout, cameraToRobot, snap)
              == Ok(EstimateSingleTag(frames, layout, cameraToRobot, snap.targets))
            <==> forall k :: 0 <= k < |snap.targets| ==> snap.targets[k].fiducialId in layout
  {
  }

  /**
    The inverted test: a valid target never has its own tag sent to the solver, unless an
    invalid target in the same snapshot shares its id.
   */
  lemma ValidTargetsNotSolvedFor(layout: Layout, targets: seq<Detection>, k: nat)
    requires k < |targets| && IsValidTarget(layout, targets[k])
    requires forall j :: 0 <= j < |targets| && j != k ==> targets[j].fiducialId != targets[k].fiducialId
    requires Gather(layout, targets).Ok?
    ensures forall i :: 0 <= i < |Gather(layout, targets).value.knownVisTags| ==>
              Gather(layout, targets).value.knownVisTags[i].id != targets[k].fiducialId
  {
  }

  /**
    A snapshot holding only valid targets hands the solver no tags at all, and its
    distance is left at Double.MAX_VALUE.
   */
  lemma AllValidGivesSolverNoTags(layout: Layout, targets: seq<Detection>)
    requires forall k :: 0 <= k < |targets| ==> IsValidTarget(layout, targets[k])
    ensures Gather(layout, targets).Ok?
    ensures Gather(layout, targets).value.knownVisTags == []
    ensures Gather(layout, targets).value.distance == DoubleMax
  {
  }
}

=== FILE: outcomes.dfy ===
/** Optional values and error outcomes, standing in for Java's null and thrown exceptions. */
module Outcomes {

  /** A value that may be missing (a Java reference that may be null, or an `Optional`). */
  datatype Option<+T> = None | Some(value: T)

  /** Either a value or the error that stopped its computation. */
  datatype Result<+T, +E> = Ok(value: T) | Err(error: E)
}

=== FILE: single_tag.dfy ===
/**
  The single-tag estimator (Vision.getRobotPoseSingleTag): the robot pose derived
  from the closest valid tag that is nearer than the maximum usable range.
 */
module SingleTag {
  import opened Outcomes
  import opened Geometry
  import opened VisionConstants
  import opened Targets

  /** A robot pose (or none) paired with the distance to the tag it came from. */
  datatype PoseAndDistance = PoseAndDistance(robotPose: Option<Pose3d>, distanceToAprilTag: real)

  /** A target the estimator may pick: valid and strictly inside the usable range. */
  predicate IsCandidate(layout: Layout, t: Detection)
  {
    IsValidTarget(layout, t) && t.planarDistance < MaxDistanceToTargetMeters
  }

  /**
    Field pose of the robot seen through one tag: the tag's field pose, moved by the
    inverse camera-to-target transform (giving the camera), then by the inverse
    camera-to-robot transform.
   */
  function RobotPoseFromTag(frames: Frames, tagPose: Pose3d, cameraToTarget: Transform3d,
                            cameraToRobot: Transform3d): Pose3d
  {
    var cameraPose := frames.transformBy(tagPose, frames.inverse(cameraToTarget));
    frames.transformBy(cameraPose, frames.inverse(cameraToRobot))
  }

  /** The distance the scan compares against once `best` is its current choice. */
  function ClosestDistance(targets: seq<Detection>, best: Option<nat>): real
    requires best.Some? ==> best.value < |targets|
  {
    if best.Some? then targets[best.value].planarDistance else DoubleMax
  }

  /**
    The index the detection-order scan keeps: a later target replaces the current
    choice only when it is a candidate strictly closer than it. Defined on prefixes,
    so `ClosestIndex(layout, targets[..k])` is the scan's choice after `k` targets.
    The result is the first candidate of minimum distance.
   */
  function ClosestIndex(layout: Layout, targets: seq<Detection>): (r: Option<nat>)
    ensures r.None? <==> forall k :: 0 <= k < |targets| ==> !IsCandidate(layout, targets[k])
    ensures r.Some? ==> r.value < |targets| && IsCandidate(layout, targets[r.value])
    ensures r.Some? ==> forall k :: 0 <= k < |targets| && IsCandidate(layout, targets[k]) ==>
                          targets[r.value].planarDistance <= targets[k].planarDistance
    ensures r.Some? ==> forall k :: 0 <= k < r.value && IsCandidate(layout, targets[k]) ==>
                          targets[r.value].planarDistance < targets[k].planarDistance
    decreases |targets|
  {
    if |targets| == 0 then None
    else
      var earlier := targets[..|targets| - 1];
      var best := ClosestIndex(layout, earlier);
      var t := targets[|targets| - 1];
      if IsCandidate(layout, t) && t.planarDistance < ClosestDistance(earlier, best) then
        Some(|targets| - 1)
      else
        assert forall k :: 0 <= k < |earlier| ==> earlier[k] == targets[k];
        best
  }

  /**
    The single-tag estimate of one pipeline: the pose seen through the scan's chosen tag,
    with that tag's distance; with no candidate, no pose and Double.MAX_VALUE.
   */
  function EstimateSingleTag(frames: Frames, layout: Layout, cameraToRobot: Transform3d,
                             targets: seq<Detection>): (r: PoseAndDistance)
    ensures r.robotPose.None? ==>
              r.distanceToAprilTag == DoubleMax
              && forall k :: 0 <= k < |targets| ==> !IsCandidate(layout, targets[k])
    ensures r.robotPose.Some? ==> r.distanceToAprilTag < MaxDistanceToTargetMeters
  {
    match ClosestIndex(layout, targets)
    case None => PoseAndDistance(None, DoubleMax)
    case Some(j) =>
      var t := targets[j];
      PoseAndDistance(Some(RobotPoseFromTag(frames, layout[t.fiducialId], t.bestCameraToTarget, cameraToRobot)),
                      t.planarDistance)
  }

  /**
    There is a pose exactly when some target is a candidate; it is the pose seen through
    the FIRST candidate of minimum distance, and the distance is that minimum.
   */
  lemma SingleTagIsClosestCandidate(frames: Frames, layout: Layout, cameraToRobot: Transform3d,
                                    targets: seq<Detection>)
    ensures var r := EstimateSingleTag(frames, layout, cameraToRobot, targets);
      && (r.robotPose.Some? <==> exists k :: 0 <= k < |targets| && IsCandidate(layout, targets[k]))
      && (r.robotPose.Some? ==>
            && (exists k :: 0 <= k < |targets| && IsCandidate(layout, targets[k])
                  && r.distanceToAprilTag == targets[k].planarDistance
                  && r.robotPose.value == RobotPoseFromTag(frames, layout[targets[k].fiducialId],
                                                           targets[k].bestCameraToTarget, cameraToRobot)
                  && (forall j :: 0 <= j < k && IsCandidate(layout, targets[j]) ==>
                        targets[k].planarDistance < targets[j].planarDistance))
            && (forall k :: 0 <= k < |targets| && IsCandidate(layout, targets[k]) ==>
                  r.distanceToAprilTag <= targets[k].planarDistance))
  {
  }

  /** A target the validator rejects, or one at or beyond the usable range, is never the one picked. */
  lemma NonCandidateNeverSelected(layout: Layout, targets: seq<Detection>, k: nat)
    requires k < |targets|
    requires !IsValidTarget(layout, targets[k]) || targets[k].planarDistance >= MaxDistanceToTargetMeters
    ensures ClosestIndex(layout, targets) != Some(k)
  {
  }

  /** On an exact distance tie between two candidates, the later one is not picked. */
  lemma TieKeepsEarliest(layout: Layout, targets: seq<Detection>, i: nat, j: nat)
    requires i < j < |targets|
    requires IsCandidate(layout, targets[i]) && IsCandidate(layout, targets[j])
    requires targets[i].planarDistance == targets[j].planarDistance
    ensures ClosestIndex(layout, targets) != Some(j)
  {
  }
}

=== FILE: targets.dfy ===
/** What one camera pipeline reports, and the target validator (Vision.isValidTarget). */
module Targets {
  import opened Outcomes
  import opened Geometry
  import opened VisionConstants

  /** A detected corner of a tag in image coordinates. */
  datatype Corner = Corner(x: real, y: real)

  /**
    One tracked target. `planarDistance` is the planar norm of the translation of
    `bestCameraToTarget`, supplied with the detection rather than computed.
   */
  datatype Detection = Detection(
    fiducialId: int,
    poseAmbiguity: real,
    bestCameraToTarget: Transform3d,
    planarDistance: real,
    detectedCorners: seq<Corner>)

  /** The field layout: tag id to field pose. Ids absent from the map are unknown tags. */
  type Layout = map<int, Pose3d>

  /**
    The latest inputs of one pipeline. A missing calibration array is `None`
    (the Java array is null); a present one may still have the wrong length.
   */
  datatype Snapshot = Snapshot(
    lastTimestamp: real,
    targets: seq<Detection>,
    cameraMatrix: Option<seq<real>>,
    distCoeffs: Option<seq<real>>)

  /** `layout.getTagPose(id)` */
  function TagPose(layout: Layout, id: int): (r: Option<Pose3d>)
    ensures r.Some? <==> id in layout
    ensures r.Some? ==> r.value == layout[id]
  {
    if id in layout then Some(layout[id]) else None
  }

  /** The target validator: a real tag, a computed ambiguity below the maximum, and a known field pose. */
  predicate IsValidTarget(layout: Layout, t: Detection)
  {
    && t.fiducialId != NoTagId
    && t.poseAmbiguity != NoAmbiguity
    && t.poseAmbiguity < MaximumAmbiguity
    && TagPose(layout, t.fiducialId).Some?
  }

  /**
    Each of the four conditions rejects a target on its own. The ambiguity sentinel
    is not subsumed by the threshold: -1 is below 0.5, so it would otherwise pass.
   */
  lemma InvalidTargets(layout: Layout, t: Detection)
    ensures t.fiducialId == NoTagId ==> !IsValidTarget(layout, t)
    ensures t.poseAmbiguity == NoAmbiguity ==> !IsValidTarget(layout, t)
    ensures t.poseAmbiguity >= MaximumAmbiguity ==> !IsValidTarget(layout, t)
    ensures t.fiducialId !in layout ==> !IsValidTarget(layout, t)
    ensures IsValidTarget(layout, t) ==> t.fiducialId in layout && t.fiducialId != NoTagId
  {
  }
}

=== FILE: vision.dfy ===
/**
  The fusion controller of the Vision subsystem (frc/lib/io/vision/Vision.java):
  the per-tick gate sequence that turns pipeline snapshots into measurements for the
  pose filter, the enable switch, the convergence check and the best-pose query.

  The pose filter (WPILib's SwerveDrivePoseEstimator) is an injected state: its
  current estimate and the log of measurements pushed into it. How the estimate
  moves when a measurement is added is the caller's `absorb` function.
 */
module Vision {
  import opened Outcomes
  import opened Geometry
  import opened VisionConstants
  import opened Targets
  import opened SingleTag
  import opened MultiTag
  import opened Confidence

  /** What `addVisionMeasurement` receives. */
  datatype Measurement = Measurement(pose: Pose2d, timestamp: real, stdDevs: StdDevs)

  /** The external pose filter: its current estimate and every vision measurement pushed so far. */
  datatype PoseFilter = PoseFilter(estimate: Pose2d, log: seq<Measurement>)

  /** Live-tunable numbers, read as parameters. */
  datatype Tunables = Tunables(poseDifferenceThreshold: real, stdDevSlope: real, stdDevPower: real)

  /** The dashboard defaults the tunables start from. */
  const DefaultTunables: Tunables := Tunables(PoseDifferenceThresholdMeters, DefaultStdDevSlope, DefaultStdDevPower)

  /** Everything fixed at construction, plus the injected external behaviour. */
  datatype Config = Config(
    frames: Frames,
    pow: Pow,
    solve: PnpSolver,
    absorb: (Pose2d, Measurement) -> Pose2d,
    layout: Layout,
    camerasToRobots: seq<Transform3d>,
    tunables: Tunables)

  /** The subsystem's mutable state; `inputs[i]` is pipeline i's latest snapshot. */
  datatype VisionState = VisionState(
    inputs: seq<Snapshot>,
    lastTimestamps: seq<real>,
    isEnabled: bool,
    isVisionUpdating: bool,
    filter: PoseFilter)

  /** One entry per camera in every per-pipeline array. */
  predicate WellFormed(c: Config, s: VisionState)
  {
    |s.inputs| == |c.camerasToRobots| && |s.lastTimestamps| == |c.camerasToRobots|
  }

  function Max(a: real, b: real): real
  {
    if a < b then b else a
  }

  /** The constructor: timestamps start at zero, the subsystem enabled and not updating. */
  function Initial(c: Config, blank: Snapshot, filter: PoseFilter): (s: VisionState)
    ensures WellFormed(c, s)
    ensures s.inputs == seq(|c.camerasToRobots|, _ => blank)
    ensures forall i :: 0 <= i < |s.lastTimestamps| ==> s.lastTimestamps[i] == 0.0
    ensures s.isEnabled && !s.isVisionUpdating && s.filter == filter
  {
    VisionState(seq(|c.camerasToRobots|, _ => blank), seq(|c.camerasToRobots|, _ => 0.0), true, false, filter)
  }

  /** `enable(b)` */
  function Enable(s: VisionState, enable: bool): (r: VisionState)
    ensures IsEnabled(r) == enable
    ensures r.(isEnabled := s.isEnabled) == s
  {
    s.(isEnabled := enable)
  }

  /** `isEnabled()` */
  function IsEnabled(s: VisionState): bool
  {
    s.isEnabled
  }

  /** `addVisionMeasurement`: the log grows by exactly the pushed measurement. */
  function AddVisionMeasurement(c: Config, f: PoseFilter, m: Measurement): (r: PoseFilter)
    ensures r.log == f.log + [m]
  {
    PoseFilter(c.absorb(f.estimate, m), f.log + [m])
  }

  function StdDevsFor(c: Config, distance: real): StdDevs
  {
    StandardDeviations(c.pow, c.tunables.stdDevSlope, c.tunables.stdDevPower, distance)
  }

  function MultiTagOf(c: Config, snap: Snapshot, i: nat): Result<PoseAndDistance, int>
    requires i < |c.camerasToRobots|
  {
    EstimateMultiTag(c.frames, c.solve, c.layout, c.camerasToRobots[i], snap)
  }

  function SingleTagOf(c: Config, s: VisionState, i: nat): PoseAndDistance
    requires WellFormed(c, s) && i < |s.inputs|
  {
    EstimateSingleTag(c.frames, c.layout, c.camerasToRobots[i], s.inputs[i].targets)
  }

  /**
    The measurement pipeline i contributes when every gate passes: the snapshot is newer
    than the last one processed, its multi-tag estimate has a pose, that pose is within the
    divergence gate of the current estimate, and the subsystem is enabled.
   */
  function Fused(c: Config, s: VisionState, snap: Snapshot, i: nat): Option<Measurement>
    requires WellFormed(c, s) && i < |s.inputs|
  {
    if s.lastTimestamps[i] < snap.lastTimestamp && s.isEnabled then
      match MultiTagOf(c, snap, i)
      case Ok(PoseAndDistance(Some(pose), distance)) =>
        var m := Measurement(c.frames.toPose2d(pose), snap.lastTimestamp, StdDevsFor(c, distance));
        if c.frames.planarGap(s.filter.estimate, m.pose) < MaxPoseDifferenceMeters then Some(m) else None
      case _ => None
    else None
  }

  /** How a tick ended: after the last pipeline, or early at pipeline `pipeline`. */
  datatype TickEnd =
    | Finished
      /** `return` on a null pose: the remaining pipelines are not looked at */
    | NoPose(pipeline: nat)
      /** the multi-tag loop's `get()` threw for an unknown tag id */
    | UnknownTag(pipeline: nat, fiducialId: int)

  datatype Tick = Tick(state: VisionState, end: TickEnd)

  datatype Step = Next(state: VisionState) | Halt(state: VisionState, end: TickEnd)

  /**
    One iteration of the periodic loop for pipeline i (`reports` is what the pipelines
    report this tick). The snapshot is always taken in; the rest happens only when it is
    newer than the last one processed.
   */
  function ProcessPipeline(c: Config, s: VisionState, reports: seq<Snapshot>, i: nat): (r: Step)
    requires WellFormed(c, s) && |reports| == |s.inputs| && i < |reports|
    ensures WellFormed(c, r.state) && r.state.isEnabled == s.isEnabled
    ensures r.state.inputs == s.inputs[i := reports[i]]
    ensures r.state.lastTimestamps == s.lastTimestamps[i := Max(s.lastTimestamps[i], reports[i].lastTimestamp)]
    ensures !(s.lastTimestamps[i] < reports[i].lastTimestamp) ==> r == Next(s.(inputs := s.inputs[i := reports[i]]))
    ensures Fused(c, s, reports[i], i).None? ==> r.state.filter == s.filter
    ensures Fused(c, s, reports[i], i).Some? ==>
              && r.Next? && r.state.filter.log == s.filter.log + [Fused(c, s, reports[i], i).value]
              && s.lastTimestamps[i] < reports[i].lastTimestamp
              && Fused(c, s, reports[i], i).value.timestamp == reports[i].lastTimestamp
    ensures r.state.isVisionUpdating == (s.isVisionUpdating || Fused(c, s, reports[i], i).Some?)
    ensures r.Halt? ==> s.lastTimestamps[i] < reports[i].lastTimestamp
    ensures s.lastTimestamps[i] < reports[i].lastTimestamp && MultiTagOf(c, reports[i], i).Err? ==>
              r.Halt? && r.end == UnknownTag(i, MultiTagOf(c, reports[i], i).error)
    ensures s.lastTimestamps[i] < reports[i].lastTimestamp && MultiTagOf(c, reports[i], i).Ok?
            && MultiTagOf(c, reports[i], i).value.robotPose.None? ==>
              r.Halt? && r.end == NoPose(i)
    ensures r.Halt? && r.end.NoPose? ==>
              r.end.pipeline == i && !HasCalibData(reports[i])
              && forall k :: 0 <= k < |reports[i].targets| ==> !IsCandidate(c.layout, reports[i].targets[k])
    ensures r.Halt? ==> r.end.NoPose? || r.end.UnknownTag?
    ensures r.Halt? && r.end.UnknownTag? ==>
              r.end.pipeline == i && r.end.fiducialId !in c.layout
              && exists k :: 0 <= k < |reports[i].targets| && reports[i].targets[k].fiducialId == r.end.fiducialId
  {
    var snap := reports[i];
    var s1 := s.(inputs := s.inputs[i := snap]);
    if !(s1.lastTimestamps[i] < snap.lastTimestamp) then
      Next(s1)
    else
      var s2 := s1.(lastTimestamps := s1.lastTimestamps[i := snap.lastTimestamp]);
      match MultiTagOf(c, snap, i)
      case Err(id) => Halt(s2, UnknownTag(i, id))
      case Ok(poseAndDistance) =>
        if poseAndDistance.robotPose.None? then
          Halt(s2, NoPose(i))
        else
          var pose := c.frames.toPose2d(poseAndDistance.robotPose.value);
          if c.frames.planarGap(s2.filter.estimate, pose) < MaxPoseDifferenceMeters then
            if s2.isEnabled then
              var m := Measurement(pose, snap.lastTimestamp, StdDevsFor(c, poseAndDistance.distanceToAprilTag));
              Next(s2.(filter := AddVisionMeasurement(c, s2.filter, m), isVisionUpdating := true))
            else
              Next(s2)
          else
            Next(s2)
  }

  /**
    A pipeline adds a measurement exactly when its snapshot is newer than the last one
    processed, its multi-tag estimate has a pose, that pose is strictly within the
    divergence gate of the current estimate, and the subsystem is enabled.
   */
  lemma MeasurementOnlyThroughGates(c: Config, s: VisionState, reports: seq<Snapshot>, i: nat)
    requires WellFormed(c, s) && |reports| == |s.inputs| && i < |reports|
    ensures var est := MultiTagOf(c, reports[i], i);
      |s.filter.log| < |ProcessPipeline(c, s, reports, i).state.filter.log|
      <==>
      && s.lastTimestamps[i] < reports[i].lastTimestamp
      && est.Ok? && est.value.robotPose.Some?
      && c.frames.planarGap(s.filter.estimate, c.frames.toPose2d(est.value.robotPose.value)) < MaxPoseDifferenceMeters
      && s.isEnabled
  {
  }

  /** The periodic loop from pipeline i on; it stops early at the first pipeline that halts. */
  function RunFrom(c: Config, s: VisionState, reports: seq<Snapshot>, i: nat): (t: Tick)
    requires WellFormed(c, s) && |reports| == |s.inputs| && i <= |reports|
    ensures WellFormed(c, t.state) && t.state.isEnabled == s.isEnabled
    decreases |reports| - i
  {
    if i == |reports| then Tick(s, Finished)
    else
      match ProcessPipeline(c, s, reports, i)
      case Halt(s', end) => Tick(s', end)
      case Next(s') => RunFrom(c, s', reports, i + 1)
  }

  /**
    Timestamps never decrease and pipelines before i are untouched. A tick that finishes
    leaves each later pipeline at the newer of its two timestamps with its new snapshot;
    one that ends early leaves every pipeline after the one it ended at untouched.
   */
  lemma {:induction false} RunFromTimestamps(c: Config, s: VisionState, reports: seq<Snapshot>, i: nat)
    requires WellFormed(c, s) && |reports| == |s.inputs| && i <= |reports|
    ensures var t := RunFrom(c, s, reports, i);
      && (forall j :: 0 <= j < |reports| ==> s.lastTimestamps[j] <= t.state.lastTimestamps[j])
      && (forall j :: 0 <= j < i ==>
            t.state.lastTimestamps[j] == s.lastTimestamps[j] && t.state.inputs[j] == s.inputs[j])
      && (t.end.Finished? ==>
            forall j :: i <= j < |reports| ==>
              t.state.lastTimestamps[j] == Max(s.lastTimestamps[j], reports[j].lastTimestamp)
              && t.state.inputs[j] == reports[j])
      && (!t.end.Finished? ==>
            i <= t.end.pipeline < |reports|
            && forall j :: t.end.pipeline < j < |reports| ==>
                 t.state.lastTimestamps[j] == s.lastTimestamps[j] && t.state.inputs[j] == s.inputs[j])
    decreases |reports| - i
  {
    if i < |reports| {
      match ProcessPipeline(c, s, reports, i)
      case Halt(s', end) =>
      case Next(s') => RunFromTimestamps(c, s', reports, i + 1);
    }
  }

  /**
    The measurement log only grows; every measurement added carries the timestamp of a
    pipeline whose snapshot was newer than its last one; `isVisionUpdating` ends true
    exactly when one was added (or it was already true); a disabled subsystem adds none.
   */
  lemma {:induction false} RunFromLog(c: Config, s: VisionState, reports: seq<Snapshot>, i: nat)
    requires WellFormed(c, s) && |reports| == |s.inputs| && i <= |reports|
    ensures var t := RunFrom(c, s, reports, i);
      && s.filter.log <= t.state.filter.log
      && (forall n :: |s.filter.log| <= n < |t.state.filter.log| ==>
            exists j :: i <= j < |reports| && s.lastTimestamps[j] < reports[j].lastTimestamp
                        && t.state.filter.log[n].timestamp == reports[j].lastTimestamp)
      && t.state.isVisionUpdating == (s.isVisionUpdating || |s.filter.log| < |t.state.filter.log|)
      && (!s.isEnabled ==> t.state.filter == s.filter)
    decreases |reports| - i
  {
    if i < |reports| {
      match ProcessPipeline(c, s, reports, i)
      case Halt(s', end) =>
      case Next(s') =>
        RunFromLog(c, s', reports, i + 1);
        var t := RunFrom(c, s', reports, i + 1);
        forall n | |s.filter.log| <= n < |t.state.filter.log|
          ensures exists j :: i <= j < |reports| && s.lastTimestamps[j] < reports[j].lastTimestamp
                              && t.state.filter.log[n].timestamp == reports[j].lastTimestamp
        {
          if n < |s'.filter.log| {
            assert s'.filter.log[n] == t.state.filter.log[n];
          } else {
            var j :| i + 1 <= j < |reports| && s'.lastTimestamps[j] < reports[j].lastTimestamp
                     && t.state.filter.log[n].timestamp == reports[j].lastTimestamp;
            assert s'.lastTimestamps[j] == s.lastTimestamps[j];
          }
        }
    }
  }

  /**
    Why a tick ends early. A null pose can only come from a pipeline with a newer snapshot,
    no usable calibration and no candidate target; an unknown-tag failure only from a newer
    snapshot holding a target whose id the layout does not know.
   */
  lemma {:induction false} RunFromEnds(c: Config, s: VisionState, reports: seq<Snapshot>, i: nat)
    requires WellFormed(c, s) && |reports| == |s.inputs| && i <= |reports|
    ensures var t := RunFrom(c, s, reports, i);
      && (t.end.NoPose? ==>
            var k := t.end.pipeline;
            && i <= k < |reports| && s.lastTimestamps[k] < reports[k].lastTimestamp
            && !HasCalibData(reports[k])
            && (forall m :: 0 <= m < |reports[k].targets| ==> !IsCandidate(c.layout, reports[k].targets[m])))
      && (t.end.UnknownTag? ==>
            var k := t.end.pipeline;
            && i <= k < |reports| && s.lastTimestamps[k] < reports[k].lastTimestamp
            && t.end.fiducialId !in c.layout
            && (exists m :: 0 <= m < |reports[k].targets| && reports[k].targets[m].fiducialId == t.end.fiducialId))
    decreases |reports| - i
  {
    if i < |reports| {
      match ProcessPipeline(c, s, reports, i)
      case Halt(s', end) =>
      case Next(s') =>
        RunFromEnds(c, s', reports, i + 1);
        RunFromTimestamps(c, s, reports, i);
    }
  }

  /**
    The converse of `RunFromEnds`: a tick only runs to the end when every pipeline from i
    on with a newer snapshot had a known-id multi-tag estimate with a pose. A null pose or
    an unknown id on any newer snapshot ends the tick there.
   */
  lemma {:induction false} FinishedTickHadPoses(c: Config, s: VisionState, reports: seq<Snapshot>, i: nat)
    requires WellFormed(c, s) && |reports| == |s.inputs| && i <= |reports|
    requires RunFrom(c, s, reports, i).end.Finished?
    ensures forall k :: i <= k < |reports| && s.lastTimestamps[k] < reports[k].lastTimestamp ==>
              MultiTagOf(c, reports[k], k).Ok? && MultiTagOf(c, reports[k], k).value.robotPose.Some?
    decreases |reports| - i
  {
    if i < |reports| {
      match ProcessPipeline(c, s, reports, i)
      case Halt(s', end) =>
      case Next(s') => FinishedTickHadPoses(c, s', reports, i + 1);
    }
  }

  /**
    One call of `periodic()`: the updating flag is cleared, then every pipeline is visited
    in order. The log only grows, the flag ends true exactly when it grew, and a tick that
    runs to the end has taken in every pipeline's snapshot.
   */
  function TickOf(c: Config, s: VisionState, reports: seq<Snapshot>): (t: Tick)
    requires WellFormed(c, s) && |reports| == |s.inputs|
    ensures WellFormed(c, t.state) && t.state.isEnabled == s.isEnabled
    ensures s.filter.log <= t.state.filter.log
    ensures t.state.isVisionUpdating <==> |s.filter.log| < |t.state.filter.log|
    ensures t.end.Finished? ==> t.state.inputs == reports
  {
    var s0 := s.(isVisionUpdating := false);
    RunFromLog(c, s0, reports, 0);
    RunFromTimestamps(c, s0, reports, 0);
    var t := RunFrom(c, s0, reports, 0);
    assert t.end.Finished? ==> t.state.inputs == reports;
    t
  }

  /**
    The inverted test's effect on fusion: a calibrated snapshot whose targets are all
    valid gives the solver no tags, so any measurement it yields is weighted as if the
    tag were Double.MAX_VALUE away; it is fused whenever the gates pass.
   */
  lemma CalibratedAllValidFusedAtDoubleMax(c: Config, s: VisionState, snap: Snapshot, i: nat)
    requires WellFormed(c, s) && i < |s.inputs|
    requires HasCalibData(snap)
    requires forall k :: 0 <= k < |snap.targets| ==> IsValidTarget(c.layout, snap.targets[k])
    ensures Fused(c, s, snap, i).Some? ==> Fused(c, s, snap, i).value.stdDevs == StdDevsFor(c, DoubleMax)
    ensures var pose := SolvedRobotPose(c.frames, c.solve, c.camerasToRobots[i], snap, AllCorners(snap.targets), []);
            s.lastTimestamps[i] < snap.lastTimestamp && s.isEnabled
            && c.frames.planarGap(s.filter.estimate, c.frames.toPose2d(pose)) < MaxPoseDifferenceMeters
            ==> Fused(c, s, snap, i).Some?
  {
    CalibratedAllValidUsesNoTags(c.frames, c.solve, c.layout, c.camerasToRobots[i], snap);
  }

  /** `periodic()`, written as the source's loop; it computes exactly `TickOf`. */
  method Periodic(c: Config, s: VisionState, reports: seq<Snapshot>) returns (t: Tick)
    requires WellFormed(c, s) && |reports| == |s.inputs|
    ensures t == TickOf(c, s, reports)
    ensures t.state.isVisionUpdating <==> |s.filter.log| < |t.state.filter.log|
  {
    RunFromLog(c, s.(isVisionUpdating := false), reports, 0);
    var st := s.(isVisionUpdating := false);
    var i := 0;
    while i < |reports|
      invariant 0 <= i <= |reports|
      invariant WellFormed(c, st)
      invariant RunFrom(c, st, reports, i) == TickOf(c, s, reports)
    {
      st := st.(inputs := st.inputs[i := reports[i]]);
      if st.lastTimestamps[i] < reports[i].lastTimestamp {
        st := st.(lastTimestamps := st.lastTimestamps[i := reports[i].lastTimestamp]);
        var estimate := EstimateMultiTag(c.frames, c.solve, c.layout, c.camerasToRobots[i], reports[i]);
        if estimate.Err? {
          return Tick(st, UnknownTag(i, estimate.error));
        }
        var robotPose := estimate.value.robotPose;
        if robotPose.None? {
          return Tick(st, NoPose(i));
        }
        var pose := c.frames.toPose2d(robotPose.value);
        if c.frames.planarGap(st.filter.estimate, pose) < MaxPoseDifferenceMeters {
          if st.isEnabled {
            var stdDevs := StandardDeviations(c.pow, c.tunables.stdDevSlope, c.tunables.stdDevPower,
                                              estimate.value.distanceToAprilTag);
            var m := Measurement(pose, reports[i].lastTimestamp, stdDevs);
            st := st.(filter := PoseFilter(c.absorb(st.filter.estimate, m), st.filter.log + [m]),
                      isVisionUpdating := true);
          }
        }
      }
      i := i + 1;
    }
    t := Tick(st, Finished);
  }

  /**
    Idempotent skip: when no pipeline reports a newer snapshot, a tick takes in the
    snapshots, clears the updating flag and changes nothing else.
   */
  lemma {:induction false} StaleFrom(c: Config, s: VisionState, reports: seq<Snapshot>, i: nat)
    requires WellFormed(c, s) && |reports| == |s.inputs| && i <= |reports|
    requires forall j :: i <= j < |reports| ==> reports[j].lastTimestamp <= s.lastTimestamps[j]
    ensures RunFrom(c, s, reports, i) == Tick(s.(inputs := s.inputs[..i] + reports[i..]), Finished)
    decreases |reports| - i
  {
    if i == |reports| {
      assert s.inputs[..i] + reports[i..] == s.inputs;
    } else {
      var s' := s.(inputs := s.inputs[i := reports[i]]);
      assert ProcessPipeline(c, s, reports, i) == Next(s');
      StaleFrom(c, s', reports, i + 1);
      assert s'.inputs[..i + 1] + reports[i + 1..] == s.inputs[..i] + reports[i..];
    }
  }

  lemma StaleTickChangesNothing(c: Config, s: VisionState, reports: seq<Snapshot>)
    requires WellFormed(c, s) && |reports| == |s.inputs|
    requires forall j :: 0 <= j < |reports| ==> reports[j].lastTimestamp <= s.lastTimestamps[j]
    ensures TickOf(c, s, reports) == Tick(s.(inputs := reports, isVisionUpdating := false), Finished)
  {
    StaleFrom(c, s.(isVisionUpdating := false), reports, 0);
    assert s.inputs[..0] + reports[0..] == reports;
  }

  /**
    A tick that ran to the end leaves every timestamp at least its snapshot's, so running
    it again on the same snapshots adds no measurement and changes no timestamp.
   */
  lemma RepeatedTickAddsNothing(c: Config, s: VisionState, reports: seq<Snapshot>)
    requires WellFormed(c, s) && |reports| == |s.inputs|
    requires TickOf(c, s, reports).end.Finished?
    ensures var s1 := TickOf(c, s, reports).state;
            TickOf(c, s1, reports) == Tick(s1.(isVisionUpdating := false), Finished)
  {
    RunFromTimestamps(c, s.(isVisionUpdating := false), reports, 0);
    var s1 := TickOf(c, s, reports).state;
    assert s1.inputs == reports;
    StaleTickChangesNothing(c, s1, reports);
  }

  /** Under the default tunables, a tag 2.0 m away gives standard deviations of 0.4 on every axis. */
  lemma DefaultTunablesAtTwoMeters(c: Config)
    requires c.tunables == DefaultTunables && c.pow(2.0, 2.0) == NatPow(2.0, 2)
    ensures StdDevsFor(c, 2.0) == StdDevs(0.4, 0.4, 0.4)
    ensures c.tunables.poseDifferenceThreshold == 0.5
  {
    DefaultsAtTwoMeters(c.pow);
  }

  /** While the subsystem is disabled a tick pushes nothing and reports no update. */
  lemma DisabledTickAddsNothing(c: Config, s: VisionState, reports: seq<Snapshot>)
    requires WellFormed(c, s) && |reports| == |s.inputs|
    ensures var t := TickOf(c, Enable(s, false), reports);
            t.state.filter == s.filter && !t.state.isVisionUpdating && !IsEnabled(t.state)
  {
    RunFromLog(c, Enable(s, false).(isVisionUpdating := false), reports, 0);
  }

  /** Whether pipeline i's single-tag pose lies within the convergence threshold of the estimate. */
  predicate ConvergesAt(c: Config, s: VisionState, i: nat)
    requires WellFormed(c, s) && i < |s.inputs|
  {
    var robotPose := SingleTagOf(c, s, i).robotPose;
    robotPose.Some?
    && c.frames.planarGap(s.filter.estimate, c.frames.toPose2d(robotPose.value))
       < c.tunables.poseDifferenceThreshold
  }

  /** `posesHaveConverged()`: true exactly when some pipeline's single-tag pose agrees with the estimate. */
  method PosesHaveConverged(c: Config, s: VisionState) returns (converged: bool)
    requires WellFormed(c, s)
    ensures converged <==> exists i :: 0 <= i < |s.inputs| && ConvergesAt(c, s, i)
  {
    var i := 0;
    while i < |s.inputs|
      invariant 0 <= i <= |s.inputs|
      invariant forall j :: 0 <= j < i ==> !ConvergesAt(c, s, j)
    {
      var robotPose := EstimateSingleTag(c.frames, c.layout, c.camerasToRobots[i], s.inputs[i].targets).robotPose;
      if robotPose.Some?
         && c.frames.planarGap(s.filter.estimate, c.frames.toPose2d(robotPose.value))
            < c.tunables.poseDifferenceThreshold {
        assert ConvergesAt(c, s, i);
        return true;
      }
      i := i + 1;
    }
    return false;
  }

  /**
    `getBestRobotPose()`: none exactly when no pipeline has a single-tag pose; otherwise
    the pose of the first pipeline whose single-tag distance is the least of all.
   */
  method GetBestRobotPose(c: Config, s: VisionState) returns (best: Option<Pose3d>)
    requires WellFormed(c, s)
    ensures best.None? <==> forall i :: 0 <= i < |s.inputs| ==> SingleTagOf(c, s, i).robotPose.None?
    ensures best.Some? ==>
              exists i :: 0 <= i < |s.inputs| && best == SingleTagOf(c, s, i).robotPose
                          && (forall j :: 0 <= j < |s.inputs| && SingleTagOf(c, s, j).robotPose.Some? ==>
                                SingleTagOf(c, s, i).distanceToAprilTag <= SingleTagOf(c, s, j).distanceToAprilTag)
                          && (forall j :: 0 <= j < i && SingleTagOf(c, s, j).robotPose.Some? ==>
                                SingleTagOf(c, s, i).distanceToAprilTag < SingleTagOf(c, s, j).distanceToAprilTag)
  {
    best := None;
    var closest := DoubleMax;
    var chosen := 0;
    var i := 0;
    while i < |s.inputs|
      invariant 0 <= i <= |s.inputs|
      invariant best.None? <==> forall j :: 0 <= j < i ==> SingleTagOf(c, s, j).robotPose.None?
      invariant best.None? ==> closest == DoubleMax
      invariant best.Some? ==>
                  chosen < i && best == SingleTagOf(c, s, chosen).robotPose
                  && closest == SingleTagOf(c, s, chosen).distanceToAprilTag
                  && (forall j :: 0 <= j < i && SingleTagOf(c, s, j).robotPose.Some? ==>
                        closest <= SingleTagOf(c, s, j).distanceToAprilTag)
                  && (forall j :: 0 <= j < chosen && SingleTagOf(c, s, j).robotPose.Some? ==>
                        closest < SingleTagOf(c, s, j).distanceToAprilTag)
    {
      var poseAndDistance := EstimateSingleTag(c.frames, c.layout, c.camerasToRobots[i], s.inputs[i].targets);
      assert poseAndDistance == SingleTagOf(c, s, i);
      if poseAndDistance.robotPose.Some? && poseAndDistance.distanceToAprilTag < closest {
        best := poseAndDistance.robotPose;
        closest := poseAndDistance.distanceToAprilTag;
        chosen := i;
      }
      i := i + 1;
    }
  }
}

=== FILE: vision_constants.dfy ===
/** Fixed thresholds of the vision code (frc/lib/io/vision/VisionConstants.java) and Java sentinels. */
module VisionConstants {

  /** A target's pose ambiguity must be strictly below this to be used. */
  const MaximumAmbiguity: real := 0.5

  /** Divergence gate: a vision pose farther than this from the estimate is not fused. */
  const MaxPoseDifferenceMeters: real := 1000.0

  /** Only tags strictly closer than this are used by the single-tag estimator. */
  const MaxDistanceToTargetMeters: real := 6.0

  /** Default of the tunable convergence threshold. */
  const PoseDifferenceThresholdMeters: real := 0.5

  /** Defaults of the tunable confidence model. */
  const DefaultStdDevSlope: real := 0.10
  const DefaultStdDevPower: real := 2.0

  /** Fiducial id reported when a target carries no tag. */
  const NoTagId: int := -1

  /** Ambiguity reported when none was computed. */
  const NoAmbiguity: real := -1.0

  /** Java's Double.MAX_VALUE, 1.7976931348623157e308, the "no distance yet" starting value. */
  const DoubleMax: real := 179769313486231570000000000000000000000000000000000000000000000000000000000000000000000000000000000000000000000000000000000000000000000000000000000000000000000000000000000000000000000000000000000000000000000000000000000000000000000000000000000000000000000000000000000000000000000000000000000000000000000000000.0
}
